=== FILE: README.md ===
# Authorization-bridging gRPC listener, modelled in Dafny

This project models the core of a gRPC server interceptor that runs every
inbound call through a Spring Security web filter chain before application
code sees it. Its three parts are:

- **`CustomListener`**: the listener the interceptor returns. Until the filter
  chain has decided, every lifecycle event (message, half-close, ready,
  cancel, complete) is put on a FIFO queue. When the chain completes with a
  security context, the listener installs that context, installs the
  application's listener as its delegate, replays the queue to it in order
  and then clears the queue. After that, events go straight to the
  delegate. When the chain completes without a context, or signals an error,
  the call is closed and `isClosed` turns every later event into a no-op.
- **Status translation**: without a context, the HTTP status captured on the
  pseudo-response chooses the gRPC status. 401 gives UNAUTHENTICATED, 403
  gives PERMISSION_DENIED, and anything else (or no status) gives UNKNOWN.
  An error signal from the filter chain closes the call with the status
  `Status.fromThrowable` derives from it. So does an `Exception` thrown while
  the delegate is installed and the queue replayed. A `java.lang.Error`
  thrown there is not caught: the call stays open, with the delegate
  installed and the queue already cleared.
- **Pseudo-request**: a POST with no body to `"/" + fullMethodName`, whose
  headers hold every value of every metadata key in order. Two things make
  building it throw, and then no listener is built:
  - `URI.create` refuses the path (for example, a space in the method name);
  - `Key.of` refuses a metadata key: an empty key, a character outside
    letters, digits, `-`, `_` and `.`, or a binary "-bin" key.

The model is functional. A call's state is an immutable `CallState`. Each
event handler and the resolution are pure step functions. A whole call is
`RunCall(next, pre, outcome, post)`: the events `pre` arrive, then the
filter chain resolves once with `outcome`, then the events `post` arrive.
This is how the asynchronous subscription appears in a sequential model:
resolution can fall between any two events, or before all of them
(`pre == []`, when the chain resolves during construction). The
application's listener is data. `AppListener.faults` says which events make
it throw, and which exception it throws for each.

Files:
- `wrappers.dfy`: `Option`.
- `status.dfy`: gRPC status codes, `FromThrowable`, and `DeniedStatus` (the
  mapping from the captured HTTP status).
- `pseudo_request.dfy`: the request path and the flattening of metadata
  into headers.
- `custom_listener.dfy`: the listener state machine.
- `listener_proofs.dfy`: properties of whole calls.

The intended behaviour of this interceptor is that the identity context is
cleared on every path that ends a call, and that no buffered event is lost.
The code differs, and the model follows the code:
- The code clears the identity context only after `onComplete`/`onCancel`
  has returned normally from the delegate. When the delegate throws there,
  the clearing statement is skipped (`Deliver`). When replay throws an
  `Exception`, the call is closed with the context still set, because the
  later complete or cancel events are ignored
  (`ContextLeftSetAfterReplayFailure`).
- When replay throws at some position, the `finally` that clears the queue
  drops the events after it. For an `Exception` the call is then closed
  (`ReplayFailureClosesCall`). For an `Error` the call stays open and later
  events reach the delegate, so the dropped events are lost from a live call
  (`ReplayErrorLosesQueuedEvents`, `ReplayErrorExample`).
- `SecurityContextHolder` is thread-local. The code sets it on the thread
  that runs the subscription's completion callback (:153). It clears it on
  whichever thread delivers `onComplete`/`onCancel` (:173, :185). gRPC runs
  each listener callback as its own task on the call's executor. So for an
  event forwarded after the grant, the holder that gets cleared need not be
  the one that was set, and the delegate sees whatever the delivering thread
  holds. The model keeps one `context` field per call. Its clearing lemmas
  therefore describe that field, not the code's threads (see "## Left out").
- When a call is denied, its queued events stay in the list and are never
  delivered (`DeniedCallClosedOnce`).

## Model

| member | source | states |
|---|---|---|
| Status.DeniedStatus | src/main/java/com/example/demo/DemoApplication.java:140-151 | Without a context, the call's status is UNAUTHENTICATED exactly for a captured 401, PERMISSION_DENIED exactly for 403, and UNKNOWN exactly in every other case, including no captured status |
| Status.FromThrowable | src/main/java/com/example/demo/DemoApplication.java:136 | The status derived from a throwable is the gRPC status it carries, and UNKNOWN when it carries none |
| PseudoRequest.RequestPath | src/main/java/com/example/demo/DemoApplication.java:119 | The synthetic path is one character longer than the method name, starts with '/', and the rest is the full method name |
| PseudoRequest.PathRoundTrip | src/main/java/com/example/demo/DemoApplication.java:119 | The method name is recovered from its path, and distinct method names give distinct paths |
| PseudoRequest.ProtoNamesParse | src/main/java/com/example/demo/DemoApplication.java:119-121 | The URI parser rejects no protobuf-style method name (letters, digits, '_', '.', '/', not starting with '/') |
| PseudoRequest.Keys | src/main/java/com/example/demo/DemoApplication.java:236 | The key list holds exactly the keys present in the metadata, each once |
| PseudoRequest.GetAll | src/main/java/com/example/demo/DemoApplication.java:237 | A value is among a key's values exactly when the metadata holds that (key, value) entry |
| PseudoRequest.GetAllAppend | src/main/java/com/example/demo/DemoApplication.java:237 | A key's values from earlier entries come before those from later entries, so metadata order is kept |
| PseudoRequest.GetAllNonEmpty | src/main/java/com/example/demo/DemoApplication.java:236-237 | A key has at least one value exactly when it is present in the metadata |
| PseudoRequest.Add | src/main/java/com/example/demo/DemoApplication.java:238 | Adding a value puts it after the values already under that name, adds the name if it is new, and leaves every other name unchanged |
| PseudoRequest.AddAll | src/main/java/com/example/demo/DemoApplication.java:237-239 | Adding one key's values one by one leaves that key with exactly those values in order, and every other header unchanged |
| PseudoRequest.Headers | src/main/java/com/example/demo/DemoApplication.java:234-242 | Flattening fails exactly when `Key.of` rejects some metadata key (empty, an illegal character, or a binary key). Otherwise the headers have exactly the metadata's keys, and each key maps to all of its values in metadata order |
| PseudoRequest.HeadersKeepEveryEntry | src/main/java/com/example/demo/DemoApplication.java:234-242 | Flattening loses and invents nothing: a (key, value) pair is in the metadata exactly when the value is under that key in the headers |
| PseudoRequest.BuildRequest | src/main/java/com/example/demo/DemoApplication.java:119-121 | Building fails when the URI parser rejects the path or `Key.of` rejects a key. For a protobuf-style method name it fails exactly when a key is rejected. When it succeeds, the path gives back the method name and the headers have exactly the metadata's keys, each with all of its values in order |
| CustomListener.Init | src/main/java/com/example/demo/DemoApplication.java:110-114 | A new listener is open, has no delegate, an empty queue and no context, and satisfies the field invariant |
| CustomListener.Close | src/main/java/com/example/demo/DemoApplication.java:135-136 | Closing sets the closed flag and records exactly one more close with the given status; nothing else changes |
| CustomListener.Deliver | src/main/java/com/example/demo/DemoApplication.java:170-174 | Handing an event to the delegate appends it to the trace under the current context. It throws exactly when the listener faults on that event. The context is cleared exactly when the event is a complete or cancel that did not throw, and is otherwise unchanged |
| CustomListener.Replay | src/main/java/com/example/demo/DemoApplication.java:224-228 | Replay changes only the trace and the context. It extends the trace by at most the queue's length, and by exactly that length when nothing was thrown |
| CustomListener.SetDelegate | src/main/java/com/example/demo/DemoApplication.java:222-232 | After installation the delegate is set and the queue is empty even when replay threw. Closure and the earlier trace are untouched |
| CustomListener.OnEvent | src/main/java/com/example/demo/DemoApplication.java:165-220 | On a closed call an event is a no-op. Without a delegate it is appended to the queue and nothing else changes. With a delegate it is delivered at once and the queue and closure stay as they are. The field invariant is preserved |
| CustomListener.Resolve | src/main/java/com/example/demo/DemoApplication.java:134-162 | An error closes the call with the error's status, and no context closes it with the captured status's code, each as one added close. A context installs the captured listener and empties the queue. When no queued event throws, it adds no close and no escaped throwable, delivers the whole queue in order, and leaves the granted identity installed unless a complete or cancel was queued. When the first throwing event is at k, it delivers the queue up to k. An Exception there adds exactly one close, with the status derived from it. An Error adds no close and is recorded as escaped. The field invariant is preserved |
| ListenerProofs.QueuedWhilePending | src/main/java/com/example/demo/DemoApplication.java:244-251 | While the call is open with no delegate, events are appended to the end of the queue in arrival order and nothing is delivered |
| ListenerProofs.ClosedIgnoresEvents | src/main/java/com/example/demo/DemoApplication.java:165-215 | Once the call is closed, any sequence of events leaves the whole state unchanged |
| ListenerProofs.ForwardedWhenInstalled | src/main/java/com/example/demo/DemoApplication.java:244-247 | With a delegate installed in an open call, every event is delivered at once in arrival order, even when the delegate throws. The queue stays empty and the call stays open |
| ListenerProofs.RunEventsExtends | src/main/java/com/example/demo/DemoApplication.java:165-220 | Events only append to the delivered trace. They never close the call, record a close or change the delegate |
| CustomListener.ReplayInOrder | src/main/java/com/example/demo/DemoApplication.java:222-232 | Replay throws nothing exactly when the listener faults on no queued event. It then delivers exactly the queue, each event once, in order |
| CustomListener.ReplayStopsAtFirstFault | src/main/java/com/example/demo/DemoApplication.java:224-231 | A replay whose first throwing event is at position k delivers the queue up to and including k and returns that event's exception |
| CustomListener.ReplayKeepsContext | src/main/java/com/example/demo/DemoApplication.java:153-155 | Replay hands each reached event over under the context installed before replay, as long as no complete or cancel came earlier |
| CustomListener.ReplayClearsContext | src/main/java/com/example/demo/DemoApplication.java:170-186 | With a listener that never throws, replay leaves the context cleared exactly when the queue held a complete or cancel |
| ListenerProofs.ForwardingClearsContext | src/main/java/com/example/demo/DemoApplication.java:170-186 | With a delegate that never throws, direct delivery clears the context exactly when a complete or cancel arrives |
| CustomListener.ReplayLeavesContext | src/main/java/com/example/demo/DemoApplication.java:170-174 | A replay that throws before any complete or cancel leaves the context as it was |
| ListenerProofs.GrantedCallDeliversArrivalOrder | src/main/java/com/example/demo/DemoApplication.java:152-161 | In a granted call the listener is installed and the queue is empty. When replay throws nowhere, the call stays open and has delivered every event, before and after the grant, once each and in arrival order. A closed granted call therefore had a throwing replay |
| ListenerProofs.GrantedContextSetBeforeReplay | src/main/java/com/example/demo/DemoApplication.java:153-155 | In a granted call, every queued event replayed before any complete or cancel is delivered with the granted identity installed |
| ListenerProofs.GrantedContextClearedByTerminal | src/main/java/com/example/demo/DemoApplication.java:170-186 | In a granted call with a listener that never throws, the context is finally cleared exactly when a complete or cancel arrived |
| ListenerProofs.ReplayFailureClosesCall | src/main/java/com/example/demo/DemoApplication.java:154-160 | If replay throws an Exception at position k, the call is closed once with that exception's status. The delegate stays installed, the queue is empty, and exactly the queue up to and including k was delivered |
| ListenerProofs.ContextLeftSetAfterReplayFailure | src/main/java/com/example/demo/DemoApplication.java:153-160 | If replay throws an Exception before any complete or cancel, the call ends closed with the granted context still set |
| ListenerProofs.ReplayErrorLosesQueuedEvents | src/main/java/com/example/demo/DemoApplication.java:154-160 | If replay throws an Error at position k, the call is never closed and the Error escapes. The delegate stays installed and the queue is empty. The delegate has received the queue up to and including k, then every later event, so the queued events after k are lost |
| ListenerProofs.ReplayErrorExample | src/main/java/com/example/demo/DemoApplication.java:225-231 | With an Error on the first of two queued messages and a half-close after the grant, the call stays open and the delegate receives the first message and the half-close, but never the second message |
| ListenerProofs.DeniedCallClosedOnce | src/main/java/com/example/demo/DemoApplication.java:140-151 | A call without a context is closed exactly once with the captured status's code. No delegate is installed, nothing is ever delivered, and earlier events stay queued |
| ListenerProofs.ErroredCallClosedOnce | src/main/java/com/example/demo/DemoApplication.java:134-136 | A call whose filter chain errors is closed exactly once with the error's status. No delegate is installed and nothing is ever delivered |
| ListenerProofs.UnauthenticatedScenario | src/test/java/com/example/demo/GrpcServerApplicationTests.java:62-65 | A request without credentials (captured 401) ends UNAUTHENTICATED with nothing delivered |
| ListenerProofs.PermissionDeniedScenario | src/test/java/com/example/demo/GrpcServerApplicationTests.java:54-57 | A non-admin request to the admin-only method (captured 403) ends PERMISSION_DENIED with nothing delivered |
| ListenerProofs.EveryCallSafe | src/main/java/com/example/demo/DemoApplication.java:134-251 | Every call, whatever its outcome and listener, is closed at most once and counts as closed exactly when it was. A call without a grant is closed and delivers nothing. A closed call delivered a prefix of the events before the grant. An open call delivered a prefix of those followed by every later event, so nothing is reordered or duplicated |

## Left out

- The security policy (`security`, DemoApplication.java:64-75), `WebFilterChainProxy` and the Reactor `Mono` subscription are foreign library behaviour. The filter chain is an input `Outcome`: an error, completion without a context (with the captured HTTP status), or completion with a context. Reactor signals a subscription's end exactly once, so `RunCall` has exactly one resolution. A chain that never resolves leaves every event queued (`QueuedWhilePending`).
- `FakeServerHttpRequest`/`FakeServerHttpResponse` (:255-316) are framework stubs. The request is POST with no body, and the response only contributes the captured status, an input of `NoContext`.
- gRPC transport, `ServerCall.close` (recorded as one `Code` in `closes`, without the empty trailers), `next.startCall` (:101), logging, `getThreadFactory` and `main` are I/O or foreign calls. Note that `next.startCall` runs before the listener is built, so before authorization. That ordering is outside this model.
- Status.FromThrowable: models `Status.fromThrowable` as "the status carried by the exception, else UNKNOWN". The walk along the cause chain is folded into the carried status.
- Concurrency is not modelled. This covers the unsynchronised `events`, `delegate` and `isClosed` fields, and the thread-local `SecurityContextHolder`. The holder is a per-call `context` field, and interleaving is the choice of where resolution falls among the events.
- ListenerProofs.ForwardingClearsContext: states the clearing rule for the per-call `context` field. In the code, an event forwarded after the grant may be delivered on a thread other than the one where :153 set the holder, so the clear at :173/:185 may hit a different holder.
- ListenerProofs.GrantedContextClearedByTerminal: holds for the per-call `context` field. For a complete or cancel forwarded after the grant, the code clears the delivering thread's holder, which need not be the one set at :153.
- An exception that a directly forwarded event makes escape goes to the transport. It is recorded in `raised`, and what the transport then does is not modelled.
- PseudoRequest.Keys: gRPC's `Metadata.keys()` is a hash set with unspecified iteration order. The model uses order of first appearance. The headers result is a map, so the order does not affect it.
- PseudoRequest.BuildRequest: of `URI.create`'s parsing (:121), only these rejections are modelled: spaces, control characters, the characters `"`, `<`, `>`, `\`, `^`, `{`, `|`, `}` and the backtick, and a '%' not followed by two hex digits. Other rejections are not modelled, such as '[' or ']' in the path. Nor is the splitting at '?' or '#', which gives the filter chain a shorter path. Nor is the reading of a leading "//" as an authority: for a method name starting with '/', `URI.create` either throws (the name "/") or takes the first segment as a host, so the filter chain sees a shorter path. The exact iff is stated only for protobuf-style method names (which do not start with '/'), which is what gRPC method descriptors hold in practice.
- PseudoRequest.Headers: `Key.of` lower-cases the name before checking it. Case folding is not modelled, so upper-case letters count as legal and keys are compared exactly. HTTP/2 requires lower-case field names (section 8.1.2 of RFC 7540), so metadata from the transport has none.
- What Reactor does with an Error that escapes the completion callback is not modelled: it either drops it or rethrows it on the subscribing thread. The model records it in `raised` and leaves the listener's own fields as the code leaves them.

=== FILE: custom_listener.dfy ===
/** The listener the interceptor returns for each call. It buffers every
    lifecycle event until the security filter chain has decided, then either
    closes the call or installs the application's listener and replays the
    buffered events to it. */
module CustomListener {
  import opened Wrappers
  import opened Status

  /** A lifecycle event of a server call. */
  datatype Event = Message(payload: string) | HalfClose | Ready | Cancel | Complete {
    /** Events after whose delivery the security context is cleared. */
    predicate Terminal() {
      Complete? || Cancel?
    }
  }

  /** The security context (authenticated principal and its authorities). */
  datatype Identity = Identity(principal: string, authorities: set<string>)

  /** The listener returned by the application's call handler. Handing it an
      event in `faults` makes it throw the mapped exception. */
  datatype AppListener = AppListener(faults: map<Event, Throwable>)

  /** One event handed to the delegate, with the security context that was
      installed when it was handed over. */
  datatype Delivery = Delivery(event: Event, context: Option<Identity>)

  /** How the subscription to the security filter chain ended: with an error
      signal, or completed with or without a security context. */
  datatype Outcome =
    | Errored(error: Throwable)
    | NoContext(captured: Option<nat>)
    | WithContext(identity: Identity)

  /** The listener's fields, plus what the outside world can observe.
      - next: the application's listener, captured at construction
      - delegate: the installed listener (null until installed)
      - events: the queue of delayed events
      - isClosed: set when the interceptor closed the call
      - closes: every status this listener closed the call with, in order
        (a close by the application itself is not recorded)
      - context: the security context holder
      - delivered: everything handed to the delegate, in order
      - raised: throwables that escaped the listener's own code, from a
        directly forwarded event or an Error thrown during replay */
  datatype CallState = CallState(
    next: AppListener,
    delegate: Option<AppListener>,
    events: seq<Event>,
    isClosed: bool,
    closes: seq<Code>,
    context: Option<Identity>,
    delivered: seq<Delivery>,
    raised: seq<Throwable>)

  /** A state after a step that may have thrown. */
  datatype Handled = Handled(state: CallState, thrown: Option<Throwable>)

  /** The events of a delivery trace. */
  function EventsOf(ds: seq<Delivery>): seq<Event> {
    seq(|ds|, i requires 0 <= i < |ds| => ds[i].event)
  }

  /** Consistency of the fields: nothing is delivered before a delegate is
      installed, the queue is empty once one is, the installed delegate is
      the captured one, and the call counts as closed exactly when a close
      was recorded. */
  predicate Inv(s: CallState) {
    && (s.delegate.None? ==> s.delivered == [] && s.raised == [])
    && (s.delegate.Some? ==> s.events == [] && s.delegate == Some(s.next))
    && (s.isClosed <==> s.closes != [])
  }

  /** A freshly constructed listener. */
  function Init(next: AppListener): (s: CallState)
    ensures Inv(s)
    ensures !s.isClosed && s.delegate.None? && s.events == [] && s.context.None?
  {
    CallState(next, None, [], false, [], None, [], [])
  }

  /** Closes the call with `c`: `isClosed = true; call.close(c, ...)`. */
  function Close(s: CallState, c: Code): (r: CallState)
    ensures r.isClosed && r.closes == s.closes + [c]
    ensures r == s.(isClosed := r.isClosed, closes := r.closes)
  {
    s.(isClosed := true, closes := s.closes + [c])
  }

  /** Hands one event to the listener `l`. If it throws, the exception is
      returned and, for a complete or cancel event, the security context is
      NOT cleared (the clearing statement is skipped); otherwise a complete
      or cancel event clears the context. */
  function Deliver(s: CallState, l: AppListener, e: Event): (h: Handled)
    ensures h.state == s.(delivered := s.delivered + [Delivery(e, s.context)], context := h.state.context)
    ensures h.thrown.Some? <==> e in l.faults
    ensures h.thrown.Some? ==> h.thrown.value == l.faults[e]
    ensures h.state.context.None? <==> s.context.None? || (e.Terminal() && e !in l.faults)
    ensures h.state.context.Some? ==> h.state.context == s.context
  {
    var s1 := s.(delivered := s.delivered + [Delivery(e, s.context)]);
    if e in l.faults then Handled(s1, Some(l.faults[e]))
    else if e.Terminal() then Handled(s1.(context := None), None)
    else Handled(s1, None)
  }

  /** Replays the queue `q` to `l` in order; the first exception stops the
      replay and is returned. Only the delivered trace and the context
      change. */
  function Replay(s: CallState, l: AppListener, q: seq<Event>): (h: Handled)
    ensures h.state == s.(delivered := h.state.delivered, context := h.state.context)
    ensures s.delivered <= h.state.delivered
    ensures |h.state.delivered| <= |s.delivered| + |q|
    ensures h.thrown.None? ==> |h.state.delivered| == |s.delivered| + |q|
    decreases |q|
  {
    if q == [] then Handled(s, None)
    else
      var h0 := Deliver(s, l, q[0]);
      if h0.thrown.Some? then h0 else Replay(h0.state, l, q[1..])
  }

  /** `setDelegate`: installs `l`, replays the queue to it, and clears the
      queue whether or not the replay threw. */
  function SetDelegate(s: CallState, l: AppListener): (h: Handled)
    ensures h.state.delegate == Some(l) && h.state.events == []
    ensures h.state.isClosed == s.isClosed && h.state.closes == s.closes
    ensures h.state.next == s.next && h.state.raised == s.raised
    ensures s.delivered <= h.state.delivered
  {
    var h := Replay(s.(delegate := Some(l)), l, s.events);
    Handled(h.state.(events := []), h.thrown)
  }

  /** Any lifecycle handler (`onMessage`, `onHalfClose`, `onReady`,
      `onCancel`, `onComplete`): a no-op once the call is closed; otherwise
      `executeOrDelay`: queued while no delegate is installed, handed to the
      delegate at once after that. An exception from the delegate escapes
      to the transport. */
  function OnEvent(s: CallState, e: Event): (r: CallState)
    ensures s.isClosed ==> r == s
    ensures !s.isClosed && s.delegate.None? ==> r == s.(events := s.events + [e])
    ensures !s.isClosed && s.delegate.Some? ==>
      && r.events == s.events && !r.isClosed && r.closes == s.closes && r.delegate == s.delegate
      && r.delivered == s.delivered + [Delivery(e, s.context)]
    ensures Inv(s) ==> Inv(r)
  {
    if s.isClosed then s
    else match s.delegate
      case None => s.(events := s.events + [e])
      case Some(l) =>
        var h := Deliver(s, l, e);
        if h.thrown.Some? then h.state.(raised := h.state.raised + [h.thrown.value])
        else h.state
  }

  /** `k` is the first position of `q` at which `l` throws. */
  predicate FirstFault(l: AppListener, q: seq<Event>, k: int) {
    && 0 <= k < |q|
    && q[k] in l.faults
    && forall i :: 0 <= i < k ==> q[i] !in l.faults
  }

  /** `l` throws on none of `es`. */
  predicate FaultFree(l: AppListener, es: seq<Event>) {
    forall i :: 0 <= i < |es| ==> es[i] !in l.faults
  }

  /** Some event of `es` clears the security context when delivered. */
  predicate HasTerminal(es: seq<Event>) {
    Complete in es || Cancel in es
  }

  /** The events of a concatenated trace. */
  lemma EventsOfAppend(a: seq<Delivery>, b: seq<Delivery>)
    ensures EventsOf(a + b) == EventsOf(a) + EventsOf(b)
  {
  }

  /** Replay hands over exactly the queued events, each once and in queue
      order, and throws nothing, exactly when the listener throws on none
      of them. */
  lemma {:induction false} ReplayInOrder(s: CallState, l: AppListener, q: seq<Event>)
    ensures var h := Replay(s, l, q);
      && (h.thrown.None? <==> FaultFree(l, q))
      && (h.thrown.None? ==> EventsOf(h.state.delivered) == EventsOf(s.delivered) + q)
    decreases |q|
  {
    if q == [] {
      assert EventsOf(s.delivered) + q == EventsOf(s.delivered);
    } else if q[0] !in l.faults {
      var h0 := Deliver(s, l, q[0]);
      EventsOfAppend(s.delivered, [Delivery(q[0], s.context)]);
      assert EventsOf([Delivery(q[0], s.context)]) == [q[0]];
      ReplayInOrder(h0.state, l, q[1..]);
      assert FaultFree(l, q[1..]) <==> FaultFree(l, q) by {
        if FaultFree(l, q[1..]) {
          forall i | 0 <= i < |q| ensures q[i] !in l.faults {
            if i > 0 { assert q[i] == q[1..][i - 1]; }
          }
        }
      }
      assert [q[0]] + q[1..] == q;
    }
  }

  /** A replay whose first throwing event is at position `k` hands over the
      queue up to and including `k`, in order, and returns that event's
      exception; the rest of the queue is not handed over. */
  lemma {:induction false} ReplayStopsAtFirstFault(s: CallState, l: AppListener, q: seq<Event>, k: nat)
    requires FirstFault(l, q, k)
    ensures var h := Replay(s, l, q);
      && h.thrown == Some(l.faults[q[k]])
      && EventsOf(h.state.delivered) == EventsOf(s.delivered) + q[..k + 1]
    decreases |q|
  {
    var h0 := Deliver(s, l, q[0]);
    EventsOfAppend(s.delivered, [Delivery(q[0], s.context)]);
    assert EventsOf([Delivery(q[0], s.context)]) == [q[0]];
    if k == 0 {
      assert q[..1] == [q[0]];
    } else {
      assert FirstFault(l, q[1..], k - 1) by {
        forall j | 0 <= j < k - 1 ensures q[1..][j] !in l.faults {
          assert q[1..][j] == q[j + 1];
        }
      }
      ReplayStopsAtFirstFault(h0.state, l, q[1..], k - 1);
      assert [q[0]] + q[1..][..k] == q[..k + 1];
    }
  }

  /** With a listener that never throws, replay leaves the context cleared
      exactly when the queue held a complete or cancel event. */
  lemma {:induction false} ReplayClearsContext(s: CallState, l: AppListener, q: seq<Event>)
    ensures FaultFree(l, q) ==> Replay(s, l, q).state.context == (if HasTerminal(q) then None else s.context)
    decreases |q|
  {
    if q != [] && FaultFree(l, q) {
      assert q == [q[0]] + q[1..];
      assert FaultFree(l, q[1..]) by {
        forall j | 0 <= j < |q[1..]| ensures q[1..][j] !in l.faults {
          assert q[1..][j] == q[j + 1];
        }
      }
      ReplayClearsContext(Deliver(s, l, q[0]).state, l, q[1..]);
    }
  }

  /** During a replay that throws on none of the first `i` events and
      meets no complete or cancel before position `i`, the event at `i` is
      handed over under the context that was installed when replay began. */
  lemma {:induction false} ReplayKeepsContext(s: CallState, l: AppListener, q: seq<Event>, i: nat)
    requires i < |q|
    requires forall j :: 0 <= j < i ==> q[j] !in l.faults && !q[j].Terminal()
    ensures var h := Replay(s, l, q);
      && |s.delivered| + i < |h.state.delivered|
      && h.state.delivered[|s.delivered| + i] == Delivery(q[i], s.context)
    decreases |q|
  {
    var h0 := Deliver(s, l, q[0]);
    if i > 0 {
      assert h0.state.context == s.context;
      ReplayKeepsContext(h0.state, l, q[1..], i - 1);
    }
  }

  /** A replay that stops at its first fault `k`, with no complete or
      cancel before `k`, leaves the context as it was. */
  lemma {:induction false} ReplayLeavesContext(s: CallState, l: AppListener, q: seq<Event>, k: nat)
    requires FirstFault(l, q, k)
    requires forall j :: 0 <= j < k ==> !q[j].Terminal()
    ensures Replay(s, l, q).state.context == s.context
    decreases |q|
  {
    if k > 0 {
      assert FirstFault(l, q[1..], k - 1) by {
        forall j | 0 <= j < k - 1 ensures q[1..][j] !in l.faults {
          assert q[1..][j] == q[j + 1];
        }
      }
      ReplayLeavesContext(Deliver(s, l, q[0]).state, l, q[1..], k - 1);
    }
  }

  /** The subscription's error and completion callbacks. An error closes
      the call with the status derived from it; completion without a
      context closes it with the status the captured HTTP status maps to;
      completion with a context installs that context and then the
      delegate, replaying the queue. When no queued event makes the delegate
      throw, the call stays as open as it was and the context is cleared
      only by a replayed complete or cancel. An Exception from replay closes
      the call with the status derived from it. An Error is not caught
      there: it escapes the callback and the call stays open, with the
      delegate installed and the queue already cleared. */
  function Resolve(s: CallState, o: Outcome): (r: CallState)
    ensures o.Errored? ==> r == Close(s, FromThrowable(o.error))
    ensures o.NoContext? ==> r == Close(s, DeniedStatus(o.captured))
    ensures o.WithContext? ==> r.delegate == Some(s.next) && r.events == []
    ensures o.WithContext? && FaultFree(s.next, s.events) ==>
      && r.isClosed == s.isClosed && r.closes == s.closes && r.raised == s.raised
      && EventsOf(r.delivered) == EventsOf(s.delivered) + s.events
      && r.context == (if HasTerminal(s.events) then None else Some(o.identity))
    ensures o.WithContext? ==> forall k :: FirstFault(s.next, s.events, k) ==>
      var t := s.next.faults[s.events[k]];
      && EventsOf(r.delivered) == EventsOf(s.delivered) + s.events[..k + 1]
      && (t.isError ==> r.isClosed == s.isClosed && r.closes == s.closes && r.raised == s.raised + [t])
      && (!t.isError ==> r.isClosed && r.closes == s.closes + [FromThrowable(t)] && r.raised == s.raised)
    ensures Inv(s) ==> Inv(r)
  {
    match o
    case Errored(t) => Close(s, FromThrowable(t))
    case NoContext(captured) => Close(s, DeniedStatus(captured))
    case WithContext(id) =>
      var s1 := s.(context := Some(id)).(delegate := Some(s.next));
      ReplayInOrder(s1, s.next, s.events);
      assert forall k :: FirstFault(s.next, s.events, k) ==>
        var h := Replay(s1, s.next, s.events);
        && h.thrown == Some(s.next.faults[s.events[k]])
        && EventsOf(h.state.delivered) == EventsOf(s1.delivered) + s.events[..k + 1]
      by {
        forall k | FirstFault(s.next, s.events, k)
          ensures var h := Replay(s1, s.next, s.events);
            && h.thrown == Some(s.next.faults[s.events[k]])
            && EventsOf(h.state.delivered) == EventsOf(s1.delivered) + s.events[..k + 1]
        {
          ReplayStopsAtFirstFault(s1, s.next, s.events, k);
        }
      }
      ReplayClearsContext(s1, s.next, s.events);
      var h := SetDelegate(s.(context := Some(id)), s.next);
      match h.thrown
      case None => h.state
      case Some(t) =>
        if t.isError then h.state.(raised := h.state.raised + [t])
        else Close(h.state, FromThrowable(t))
  }

  /** Feeds a sequence of lifecycle events to the listener, in order. */
  function RunEvents(s: CallState, es: seq<Event>): CallState
    decreases |es|
  {
    if es == [] then s else RunEvents(OnEvent(s, es[0]), es[1..])
  }

  /** One whole call: the listener is constructed around `next`, the
      events `pre` arrive, the filter chain resolves with `o`, then the
      events `post` arrive. `pre == []` is the case where the filter chain
      resolved during construction. */
  function RunCall(next: AppListener, pre: seq<Event>, o: Outcome, post: seq<Event>): CallState {
    RunEvents(Resolve(RunEvents(Init(next), pre), o), post)
  }
}

=== FILE: listener_proofs.dfy ===
/** Properties of whole calls through the buffering listener: FIFO replay,
    no delivery after closure or without a grant, the status chosen for each
    outcome, and when the security context is set and cleared. */
module ListenerProofs {
  import opened Wrappers
  import opened Status
  import opened CustomListener

  /** While no delegate is installed and the call is open, every event is
      appended to the end of the queue and nothing else changes: in
      particular nothing is delivered. */
  lemma {:induction false} QueuedWhilePending(s: CallState, es: seq<Event>)
    requires !s.isClosed && s.delegate.None?
    ensures RunEvents(s, es) == s.(events := s.events + es)
    decreases |es|
  {
    if es == [] {
      assert s.events + es == s.events;
    } else {
      QueuedWhilePending(OnEvent(s, es[0]), es[1..]);
      assert s.events + [es[0]] + es[1..] == s.events + es;
    }
  }

  /** Once the call is closed every lifecycle event is a no-op. */
  lemma {:induction false} ClosedIgnoresEvents(s: CallState, es: seq<Event>)
    requires s.isClosed
    ensures RunEvents(s, es) == s
    decreases |es|
  {
    if es != [] {
      ClosedIgnoresEvents(OnEvent(s, es[0]), es[1..]);
    }
  }

  /** Once a delegate is installed in an open call, every event is handed
      to it immediately and in arrival order, even when the delegate throws;
      the queue, the closure and the delegate stay as they are. */
  lemma {:induction false} ForwardedWhenInstalled(s: CallState, es: seq<Event>)
    requires !s.isClosed && s.delegate.Some?
    ensures var r := RunEvents(s, es);
      && !r.isClosed && r.closes == s.closes && r.events == s.events && r.delegate == s.delegate
      && s.delivered <= r.delivered
      && EventsOf(r.delivered) == EventsOf(s.delivered) + es
    decreases |es|
  {
    if es == [] {
      assert EventsOf(s.delivered) + es == EventsOf(s.delivered);
    } else {
      var s1 := OnEvent(s, es[0]);
      ForwardedWhenInstalled(s1, es[1..]);
      EventsOfAppend(s.delivered, [Delivery(es[0], s.context)]);
      assert EventsOf([Delivery(es[0], s.context)]) == [es[0]];
      assert [es[0]] + es[1..] == es;
    }
  }

  /** Every run of events only appends to the delivered trace and never
      changes the closes. */
  lemma {:induction false} RunEventsExtends(s: CallState, es: seq<Event>)
    ensures var r := RunEvents(s, es);
      && s.delivered <= r.delivered && r.closes == s.closes && r.isClosed == s.isClosed
      && r.delegate == s.delegate
      && (s.delegate.None? ==> r.delivered == s.delivered)
      && (s.delegate.Some? ==> r.events == s.events)
      && s.raised <= r.raised
    decreases |es|
  {
    if es != [] {
      RunEventsExtends(OnEvent(s, es[0]), es[1..]);
    }
  }

  /** After the delegate is installed, with a listener that never throws,
      the context is cleared exactly when a complete or cancel arrives. */
  lemma {:induction false} ForwardingClearsContext(s: CallState, es: seq<Event>)
    requires !s.isClosed && s.delegate.Some? && FaultFree(s.delegate.value, es)
    ensures RunEvents(s, es).context == (if HasTerminal(es) then None else s.context)
    decreases |es|
  {
    if es != [] {
      assert es == [es[0]] + es[1..];
      assert FaultFree(s.delegate.value, es[1..]) by {
        forall j | 0 <= j < |es[1..]| ensures es[1..][j] !in s.delegate.value.faults {
          assert es[1..][j] == es[j + 1];
        }
      }
      ForwardingClearsContext(OnEvent(s, es[0]), es[1..]);
    }
  }

  /** The state at the moment the filter chain resolves: every event so far
      is queued. */
  lemma PendingBeforeResolve(next: AppListener, pre: seq<Event>)
    ensures RunEvents(Init(next), pre) == Init(next).(events := pre)
  {
    QueuedWhilePending(Init(next), pre);
  }

  /** Granted call. The application listener is installed and the queue
      is empty. When no queued event makes it throw during replay, the call
      stays open and the delegate has received every accepted event, each
      once, in arrival order; a closed call therefore had a throwing replay. */
  lemma GrantedCallDeliversArrivalOrder(next: AppListener, id: Identity, pre: seq<Event>, post: seq<Event>)
    ensures var r := RunCall(next, pre, WithContext(id), post);
      && r.delegate == Some(next) && r.events == []
      && (r.isClosed ==> !FaultFree(next, pre))
      && (FaultFree(next, pre) ==> !r.isClosed && r.closes == [] && EventsOf(r.delivered) == pre + post)
  {
    PendingBeforeResolve(next, pre);
    var s0 := Init(next).(events := pre);
    var s1 := s0.(context := Some(id)).(delegate := Some(next));
    ReplayInOrder(s1, next, pre);
    var s2 := Resolve(s0, WithContext(id));
    RunEventsExtends(s2, post);
    if !s2.isClosed {
      ForwardedWhenInstalled(s2, post);
    }
  }

  /** Granted call. The context is installed before replay begins: every
      queued event that replay reaches before any complete or cancel is
      handed over with the granted identity installed. */
  lemma GrantedContextSetBeforeReplay(next: AppListener, id: Identity, pre: seq<Event>, post: seq<Event>, i: nat)
    requires i < |pre|
    requires forall j :: 0 <= j < i ==> pre[j] !in next.faults && !pre[j].Terminal()
    ensures var r := RunCall(next, pre, WithContext(id), post);
      i < |r.delivered| && r.delivered[i] == Delivery(pre[i], Some(id))
  {
    PendingBeforeResolve(next, pre);
    var s0 := Init(next).(events := pre);
    var s1 := s0.(context := Some(id)).(delegate := Some(next));
    ReplayKeepsContext(s1, next, pre, i);
    RunEventsExtends(Resolve(s0, WithContext(id)), post);
  }

  /** Granted call, listener that never throws. At the end the context is
      cleared exactly when a complete or cancel arrived, before or after
      the grant. */
  lemma GrantedContextClearedByTerminal(next: AppListener, id: Identity, pre: seq<Event>, post: seq<Event>)
    requires FaultFree(next, pre) && FaultFree(next, post)
    ensures var r := RunCall(next, pre, WithContext(id), post);
      r.context.None? <==> HasTerminal(pre + post)
  {
    PendingBeforeResolve(next, pre);
    var s0 := Init(next).(events := pre);
    var s1 := s0.(context := Some(id)).(delegate := Some(next));
    ReplayInOrder(s1, next, pre);
    ReplayClearsContext(s1, next, pre);
    var s2 := Resolve(s0, WithContext(id));
    ForwardingClearsContext(s2, post);
    assert HasTerminal(pre + post) <==> HasTerminal(pre) || HasTerminal(post);
  }

  /** Granted call whose replay throws an Exception at queue position `k`.
      The call is closed once, with the status derived from that exception;
      the delegate
      stays installed, has received the queue up to and including position
      `k`, and nothing more: the rest of the queue is dropped and later
      events are ignored. */
  lemma ReplayFailureClosesCall(next: AppListener, id: Identity, pre: seq<Event>, post: seq<Event>, k: nat)
    requires FirstFault(next, pre, k) && !next.faults[pre[k]].isError
    ensures var r := RunCall(next, pre, WithContext(id), post);
      && r.isClosed && r.closes == [FromThrowable(next.faults[pre[k]])]
      && r.delegate == Some(next) && r.events == []
      && EventsOf(r.delivered) == pre[..k + 1]
  {
    PendingBeforeResolve(next, pre);
    var s0 := Init(next).(events := pre);
    var s1 := s0.(context := Some(id)).(delegate := Some(next));
    ReplayStopsAtFirstFault(s1, next, pre, k);
    assert EventsOf(s1.delivered) == [];
    ClosedIgnoresEvents(Resolve(s0, WithContext(id)), post);
  }

  /** A replay that throws an Exception leaves the granted context
      installed when no complete or cancel was replayed successfully before
      it: the close does not clear it and the later terminal events are
      ignored. */
  lemma ContextLeftSetAfterReplayFailure(next: AppListener, id: Identity, pre: seq<Event>, post: seq<Event>, k: nat)
    requires FirstFault(next, pre, k) && !next.faults[pre[k]].isError
    requires forall j :: 0 <= j < k ==> !pre[j].Terminal()
    ensures var r := RunCall(next, pre, WithContext(id), post);
      r.isClosed && r.context == Some(id)
  {
    PendingBeforeResolve(next, pre);
    var s0 := Init(next).(events := pre);
    var s1 := s0.(context := Some(id)).(delegate := Some(next));
    ReplayLeavesContext(s1, next, pre, k);
    ReplayStopsAtFirstFault(s1, next, pre, k);
    ClosedIgnoresEvents(Resolve(s0, WithContext(id)), post);
  }

  /** Granted call whose replay throws an Error at queue position `k`.
      The Error is not caught, so the call is never closed: the delegate
      stays installed, the queue has been cleared, and later events go
      straight to the delegate. The queued events after position `k` are
      lost while the call carries on. */
  lemma ReplayErrorLosesQueuedEvents(next: AppListener, id: Identity, pre: seq<Event>, post: seq<Event>, k: nat)
    requires FirstFault(next, pre, k) && next.faults[pre[k]].isError
    ensures var r := RunCall(next, pre, WithContext(id), post);
      && !r.isClosed && r.closes == []
      && r.delegate == Some(next) && r.events == []
      && |r.raised| >= 1 && r.raised[0] == next.faults[pre[k]]
      && EventsOf(r.delivered) == pre[..k + 1] + post
  {
    PendingBeforeResolve(next, pre);
    var s0 := Init(next).(events := pre);
    assert EventsOf(s0.delivered) == [];
    var s2 := Resolve(s0, WithContext(id));
    assert && !s2.isClosed && s2.closes == [] && s2.raised == [next.faults[pre[k]]]
           && EventsOf(s2.delivered) == pre[..k + 1];
    ForwardedWhenInstalled(s2, post);
    RunEventsExtends(s2, post);
  }

  /** An instance of the lost events: the listener throws an Error on the
      first of two queued messages, and a half-close follows the grant. The
      second message is never delivered, yet the call stays open and the
      half-close is. */
  lemma ReplayErrorExample(id: Identity)
    ensures var next := AppListener(map[Message("a") := Throwable(None, true)]);
      var r := RunCall(next, [Message("a"), Message("b")], WithContext(id), [HalfClose]);
      !r.isClosed && EventsOf(r.delivered) == [Message("a"), HalfClose]
  {
  }

  /** Call without a security context. It is closed exactly once, with
      UNAUTHENTICATED for a captured 401, PERMISSION_DENIED for 403 and
      UNKNOWN otherwise; no delegate is installed and nothing is ever
      delivered; the events that arrived before stay queued. */
  lemma DeniedCallClosedOnce(next: AppListener, captured: Option<nat>, pre: seq<Event>, post: seq<Event>)
    ensures var r := RunCall(next, pre, NoContext(captured), post);
      && r.isClosed && r.closes == [DeniedStatus(captured)]
      && r.delegate.None? && r.delivered == [] && r.events == pre && r.context.None?
  {
    PendingBeforeResolve(next, pre);
    ClosedIgnoresEvents(Resolve(Init(next).(events := pre), NoContext(captured)), post);
  }

  /** Call whose filter chain signalled an error. It is closed exactly once
      with the status derived from the error; no delegate is installed and
      nothing is ever delivered. */
  lemma ErroredCallClosedOnce(next: AppListener, t: Throwable, pre: seq<Event>, post: seq<Event>)
    ensures var r := RunCall(next, pre, Errored(t), post);
      && r.isClosed && r.closes == [FromThrowable(t)]
      && r.delegate.None? && r.delivered == [] && r.events == pre
  {
    PendingBeforeResolve(next, pre);
    ClosedIgnoresEvents(Resolve(Init(next).(events := pre), Errored(t)), post);
  }

  /** The request without credentials in the test suite: the filter chain
      captures 401, and the call ends UNAUTHENTICATED with nothing
      delivered. */
  lemma UnauthenticatedScenario(next: AppListener, pre: seq<Event>, post: seq<Event>)
    ensures var r := RunCall(next, pre, NoContext(Some(401)), post);
      r.closes == [Unauthenticated] && r.delivered == []
  {
    DeniedCallClosedOnce(next, Some(401), pre, post);
  }

  /** The authenticated but non-admin request in the test suite: the
      filter chain captures 403, and the call ends PERMISSION_DENIED with
      nothing delivered. */
  lemma PermissionDeniedScenario(next: AppListener, pre: seq<Event>, post: seq<Event>)
    ensures var r := RunCall(next, pre, NoContext(Some(403)), post);
      r.closes == [PermissionDenied] && r.delivered == []
  {
    DeniedCallClosedOnce(next, Some(403), pre, post);
  }

  /** Every call, whatever the outcome and however the listener behaves:
      it is closed at most once and counts as closed exactly when it was;
      nothing reaches the application listener unless a context was
      granted; a closed call delivered a prefix of the events that arrived
      before the grant; an open granted call delivered a prefix of those
      events followed by every later event. So no event is reordered or
      duplicated, and only queued events after a replay fault can be lost. */
  lemma EveryCallSafe(next: AppListener, pre: seq<Event>, o: Outcome, post: seq<Event>)
    ensures var r := RunCall(next, pre, o, post);
      && |r.closes| <= 1 && (r.isClosed <==> |r.closes| == 1)
      && (!o.WithContext? ==> r.isClosed && r.delivered == [])
      && (r.isClosed ==> EventsOf(r.delivered) <= pre)
      && (!r.isClosed ==> exists n :: 0 <= n <= |pre| && EventsOf(r.delivered) == pre[..n] + post)
  {
    match o
    case Errored(t) => ErroredCallClosedOnce(next, t, pre, post);
    case NoContext(c) => DeniedCallClosedOnce(next, c, pre, post);
    case WithContext(id) =>
      GrantedCallDeliversArrivalOrder(next, id, pre, post);
      var r := RunCall(next, pre, o, post);
      if FaultFree(next, pre) {
        assert pre[..|pre|] == pre;
      } else {
        var k := FirstFaultExists(next, pre);
        if next.faults[pre[k]].isError {
          ReplayErrorLosesQueuedEvents(next, id, pre, post, k);
        } else {
          ReplayFailureClosesCall(next, id, pre, post, k);
        }
      }
  }

  /** A listener that throws on some event of `q` has a first such event. */
  lemma {:induction false} FirstFaultExists(l: AppListener, q: seq<Event>) returns (k: nat)
    requires !FaultFree(l, q)
    ensures FirstFault(l, q, k)
    decreases |q|
  {
    if q[0] in l.faults {
      k := 0;
    } else {
      assert !FaultFree(l, q[1..]) by {
        var i :| 0 <= i < |q| && q[i] in l.faults;
        assert q[1..][i - 1] == q[i];
      }
      var k0 := FirstFaultExists(l, q[1..]);
      k := k0 + 1;
      forall i | 0 <= i < k ensures q[i] !in l.faults {
        if i > 0 { assert q[i] == q[1..][i - 1]; }
      }
    }
  }
}

=== FILE: pseudo_request.dfy ===
/** The synthetic HTTP request handed to the security filter chain: a path
    built from the gRPC method name and headers flattened from the call's
    metadata. */
module PseudoRequest {
  import opened Wrappers

  /** One metadata entry. Metadata is an ordered list of entries and a key
      may occur many times. Keys ending in "-bin" hold binary values. */
  datatype Entry = Entry(key: string, value: string)

  type Metadata = seq<Entry>

  /** A multi-valued header map: each header name to its values in order. */
  type HttpHeaders = map<string, seq<string>>

  /** The request the filter chain sees. Its method is always POST and its
      body always empty, so only the path and the headers are kept. */
  datatype Request = Request(path: string, headers: HttpHeaders)

  /** A binary metadata key, which an ASCII key refuses. */
  predicate IsBinaryKey(k: string) {
    |k| >= 4 && k[|k| - 4..] == "-bin"
  }

  /** A character `Key.of` accepts in a key name (upper-case letters pass
      because the name is lower-cased before the check). */
  predicate LegalKeyChar(c: char) {
    ('a' <= c <= 'z') || ('A' <= c <= 'Z') || ('0' <= c <= '9') || c == '-' || c == '_' || c == '.'
  }

  /** `Key.of(key, ASCII_STRING_MARSHALLER)` throws an
      IllegalArgumentException for this key: it is empty, holds a character
      outside the legal set, or is a binary key. */
  predicate KeyRejected(k: string) {
    || k == ""
    || (exists i :: 0 <= i < |k| && !LegalKeyChar(k[i]))
    || IsBinaryKey(k)
  }

  /** The metadata holds an entry whose key `Key.of` rejects. */
  predicate HasRejectedKey(md: Metadata) {
    exists e :: e in md && KeyRejected(e.key)
  }

  predicate IsHexDigit(c: char) {
    ('0' <= c <= '9') || ('a' <= c <= 'f') || ('A' <= c <= 'F')
  }

  /** A character `java.net.URI` refuses in every part of a URI: a space,
      a control character, or one of the ASCII characters that are neither
      reserved nor unreserved. */
  predicate UriIllegalChar(c: char) {
    c <= ' ' || c == 0x7F as char
    || c == '"' || c == '<' || c == '>' || c == '\\' || c == '^' || c == '`'
    || c == '{' || c == '|' || c == '}'
  }

  /** `URI.create("/" + name)` throws an IllegalArgumentException for this
      method name: it holds an illegal character, or a '%' that is not
      followed by two hexadecimal digits. */
  predicate UriRejects(name: string) {
    exists i :: 0 <= i < |name| &&
      (UriIllegalChar(name[i])
       || (name[i] == '%' && !(i + 2 < |name| && IsHexDigit(name[i + 1]) && IsHexDigit(name[i + 2]))))
  }

  /** A protobuf-style full method name ("package.Service/Method"): letters,
      digits, '_', '.' and '/', not starting with '/'. `URI.create` accepts
      "/" + such a name and keeps all of it as the path. A leading '/' would
      make the path start with "//", which the URI parser reads as an
      authority instead. */
  predicate ProtoMethodName(name: string) {
    && (name == [] || name[0] != '/')
    && forall i :: 0 <= i < |name| ==>
         || ('a' <= name[i] <= 'z') || ('A' <= name[i] <= 'Z') || ('0' <= name[i] <= '9')
         || name[i] == '_' || name[i] == '.' || name[i] == '/'
  }

  /** No protobuf-style name is refused by the URI parser. */
  lemma ProtoNamesParse(name: string)
    ensures ProtoMethodName(name) ==> !UriRejects(name)
  {
  }

  /** The synthetic path: "/" followed by the full gRPC method name
      ("package.Service/Method"). */
  function RequestPath(fullMethodName: string): (path: string)
    ensures |path| == |fullMethodName| + 1
    ensures path[0] == '/'
    ensures path[1..] == fullMethodName
  {
    "/" + fullMethodName
  }

  /** Recovers the method name from a synthetic path; None for a path that
      does not start with '/'. */
  function MethodNameOf(path: string): (name: Option<string>)
    ensures name.Some? <==> |path| > 0 && path[0] == '/'
    ensures name.Some? ==> |name.value| + 1 == |path|
  {
    if |path| > 0 && path[0] == '/' then Some(path[1..]) else None
  }

  /** Distinct method names give distinct paths, and the name is recovered
      from the path. */
  lemma PathRoundTrip(a: string, b: string)
    ensures MethodNameOf(RequestPath(a)) == Some(a)
    ensures RequestPath(a) == RequestPath(b) ==> a == b
  {
  }

  /** The set of keys present in the metadata. */
  function KeySet(md: Metadata): set<string> {
    set e | e in md :: e.key
  }

  /** `Metadata.keys()`: every key of the metadata exactly once. The source
      returns a hash set, so its iteration order is unspecified; this model
      takes the order of first appearance. */
  function Keys(md: Metadata): (ks: seq<string>)
    ensures forall k :: k in ks <==> k in KeySet(md)
    ensures forall i, j :: 0 <= i < j < |ks| ==> ks[i] != ks[j]
    decreases |md|
  {
    if md == [] then []
    else
      var init := md[..|md| - 1];
      var last := md[|md| - 1];
      assert md == init + [last];
      var ks := Keys(init);
      if last.key in ks then ks else ks + [last.key]
  }

  /** `Metadata.getAll(key)`: the values of every entry with key `k`, in the
      order the entries occur. */
  function GetAll(md: Metadata, k: string): (vs: seq<string>)
    ensures forall v :: v in vs <==> Entry(k, v) in md
    ensures |vs| <= |md|
  {
    if md == [] then []
    else
      assert md == [md[0]] + md[1..];
      (if md[0].key == k then [md[0].value] else []) + GetAll(md[1..], k)
  }

  /** Values of earlier entries come before values of later ones: GetAll
      keeps the metadata's order. */
  lemma {:induction false} GetAllAppend(a: Metadata, b: Metadata, k: string)
    ensures GetAll(a + b, k) == GetAll(a, k) + GetAll(b, k)
    decreases |a|
  {
    if a == [] {
      assert a + b == b;
    } else {
      assert (a + b)[1..] == a[1..] + b;
      GetAllAppend(a[1..], b, k);
    }
  }

  /** A key is present exactly when it has at least one value. */
  lemma GetAllNonEmpty(md: Metadata, k: string)
    ensures GetAll(md, k) != [] <==> k in KeySet(md)
  {
  }

  /** Adds one value under a header name, after the values already there
      (`MultiValueMap.add`). */
  function Add(h: HttpHeaders, k: string, v: string): (r: HttpHeaders)
    ensures r.Keys == h.Keys + {k}
    ensures r[k] == (if k in h then h[k] else []) + [v]
    ensures forall k' :: k' in h && k' != k ==> r[k'] == h[k']
  {
    h[k := (if k in h then h[k] else []) + [v]]
  }

  /** Adds `values` under `key`, one by one and in order, to a header map
      that does not hold `key` yet; the other names keep their values. */
  method AddAll(h0: HttpHeaders, key: string, values: seq<string>) returns (h: HttpHeaders)
    requires key !in h0
    ensures h.Keys == h0.Keys + (if values == [] then {} else {key})
    ensures key in h ==> h[key] == values
    ensures forall k :: k in h0 ==> h[k] == h0[k]
  {
    h := h0;
    for j := 0 to |values|
      invariant h.Keys == h0.Keys + (if j == 0 then {} else {key})
      invariant key in h ==> h[key] == values[..j]
      invariant forall k :: k in h0 ==> h[k] == h0[k]
    {
      assert values[..j + 1] == values[..j] + [values[j]];
      h := Add(h, key, values[j]);
    }
    assert values[..|values|] == values;
  }

  /** A rejected key of the metadata makes the metadata rejected. */
  lemma RejectedKeyFound(md: Metadata, key: string)
    requires key in KeySet(md) && KeyRejected(key)
    ensures HasRejectedKey(md)
  {
  }

  /** Metadata none of whose keys is rejected is not rejected. */
  lemma NoRejectedKey(md: Metadata, keys: seq<string>)
    requires forall k :: k in keys <==> k in KeySet(md)
    requires forall k :: k in keys ==> !KeyRejected(k)
    ensures !HasRejectedKey(md)
  {
    forall e | e in md
      ensures !KeyRejected(e.key)
    {
      assert e.key in KeySet(md);
    }
  }

  /** Flattens the call metadata into request headers, key by key, adding
      each value of the key in order. The ASCII key lookup throws on a key
      `Key.of` rejects, so flattening fails (None) exactly when the
      metadata has one; otherwise the result has exactly the metadata's keys, each with
      all of its values in their original order. */
  method Headers(md: Metadata) returns (result: Option<HttpHeaders>)
    ensures result.None? <==> HasRejectedKey(md)
    ensures result.Some? ==> result.value.Keys == KeySet(md)
    ensures result.Some? ==> forall k :: k in result.value ==> result.value[k] == GetAll(md, k)
  {
    var h: HttpHeaders := map[];
    var keys := Keys(md);
    for i := 0 to |keys|
      invariant h.Keys == set k | k in keys[..i]
      invariant forall k :: k in h ==> h[k] == GetAll(md, k)
      invariant forall k :: k in keys[..i] ==> !KeyRejected(k)
    {
      var key := keys[i];
      if KeyRejected(key) {
        RejectedKeyFound(md, key);
        return None;
      }
      assert key !in keys[..i];
      GetAllNonEmpty(md, key);
      h := AddAll(h, key, GetAll(md, key));
      assert keys[..i + 1] == keys[..i] + [key];
    }
    assert keys[..|keys|] == keys;
    NoRejectedKey(md, keys);
    result := Some(h);
  }

  /** Flattening loses no entry and invents none: a (key, value) pair is in
      the metadata exactly when the value is among the key's headers. */
  lemma HeadersKeepEveryEntry(md: Metadata, h: HttpHeaders)
    requires h.Keys == KeySet(md)
    requires forall k :: k in h ==> h[k] == GetAll(md, k)
    ensures forall k, v :: Entry(k, v) in md <==> k in h && v in h[k]
  {
  }

  /** Builds the pseudo-request for a call: the synthetic path, parsed as
      a URI, with the flattened metadata as headers. The path is parsed
      first, then the headers flattened; either may throw, and then the
      listener is never constructed (None). For a protobuf-style method
      name only a rejected metadata key makes it fail. */
  method BuildRequest(fullMethodName: string, md: Metadata) returns (r: Option<Request>)
    ensures UriRejects(fullMethodName) || HasRejectedKey(md) ==> r.None?
    ensures ProtoMethodName(fullMethodName) ==> (r.None? <==> HasRejectedKey(md))
    ensures r.Some? ==> MethodNameOf(r.value.path) == Some(fullMethodName)
    ensures r.Some? ==> r.value.headers.Keys == KeySet(md)
    ensures r.Some? ==> forall k :: k in r.value.headers ==> r.value.headers[k] == GetAll(md, k)
    ensures r.Some? ==> forall k, v :: Entry(k, v) in md <==> k in r.value.headers && v in r.value.headers[k]
  {
    if UriRejects(fullMethodName) {
      return None;
    }
    var headers := Headers(md);
    match headers
    case None =>
      r := None;
    case Some(h) =>
      HeadersKeepEveryEntry(md, h);
      r := Some(Request(RequestPath(fullMethodName), h));
  }
}

=== FILE: status.dfy ===
/** gRPC status codes and the two ways the interceptor derives one:
    from an exception, and from the HTTP status the security filter captured. */
module Status {
  import opened Wrappers

  /** The status codes of `io.grpc.Status.Code`. */
  datatype Code =
    | Ok | Cancelled | Unknown | InvalidArgument | DeadlineExceeded | NotFound
    | AlreadyExists | PermissionDenied | ResourceExhausted | FailedPrecondition
    | Aborted | OutOfRange | Unimplemented | Internal | Unavailable | DataLoss
    | Unauthenticated

  /** HTTP 401 Unauthorized, as set on the pseudo-response by the filter chain. */
  const HttpUnauthorized: nat := 401
  /** HTTP 403 Forbidden. */
  const HttpForbidden: nat := 403

  /** A Java throwable. `status` is the gRPC status it carries when it is a
      status exception (or has one in its cause chain), and None otherwise.
      `isError` is true for a `java.lang.Error`, which a `catch (Exception e)`
      does not catch, and false for an `Exception`. */
  datatype Throwable = Throwable(status: Option<Code>, isError: bool)

  /** `Status.fromThrowable`: the carried status, else UNKNOWN. */
  function FromThrowable(t: Throwable): (c: Code)
    ensures t.status.Some? ==> c == t.status.value
    ensures t.status.None? ==> c == Unknown
  {
    match t.status
    case Some(c) => c
    case None => Unknown
  }

  /** The status a call is closed with when the filter chain completed
      without a security context; `captured` is the pseudo-response's status
      code, None when the filter chain set none. */
  function DeniedStatus(captured: Option<nat>): (c: Code)
    ensures c == Unauthenticated <==> captured == Some(HttpUnauthorized)
    ensures c == PermissionDenied <==> captured == Some(HttpForbidden)
    ensures c == Unknown <==> captured != Some(HttpUnauthorized) && captured != Some(HttpForbidden)
  {
    if captured == Some(HttpUnauthorized) then Unauthenticated
    else if captured == Some(HttpForbidden) then PermissionDenied
    else Unknown
  }
}

=== FILE: wrappers.dfy ===
/** A value that may be absent, standing in for a Java reference that may
    be null. */
module Wrappers {

  datatype Option<T> = None | Some(value: T)
}
